=== FILE: README.md ===
# Desktop window manager, icon grid and snake game — a Dafny model

This project models the stateful core of a browser-based desktop simulation
(`xp-script.js`): the **window registry** that opens, focuses, stacks,
minimizes, maximizes and closes windows; the **desktop icon grid** that lays
icons out column by column and snaps a dragged icon to the nearest cell; and
the **snake game** step that runs inside one of those windows.

Everything is a pure function over immutable data:

- `JsMath` (`js_math.dfy`) spells out the JavaScript arithmetic the script
  uses: `Math.floor(a / b)`, the truncating `%`, and `Math.round(a / b)`.
  Dafny's `/` and `%` are Euclidean, so they are not used raw where a sign
  could differ.
- `IconGrid` (`icon_grid.dfy`) covers `window.arrangeIcons` and
  `window.snapToGrid`. The constants are 90 × 100 pixel cells, a 15 pixel
  margin, a 48 pixel taskbar band and a 75 pixel icon footprint.
- `WindowManager` (`window_manager.dfy`) holds a `Desktop`: a map from window
  id to a `Window` record, plus the global z-index counter, which starts at 100.
  A window record holds its `active` and `hidden` classes, its z-index, its
  inline geometry, its maximize flag and saved geometry, and the `active` class
  of its taskbar button. Keeping the taskbar button inside the window record
  makes the two appear and disappear together. Sticky notes share the
  z-index counter, so `RaiseNote` advances it without touching any window.
  `Inv` is the invariant of every reachable desktop. `Run` applies any
  sequence of operations, sticky-note raises included, and `RunInv` proves
  that every sequence keeps `Inv`.
- `Snake` (`snake.dfy`) covers the arrow-key handler, the 100 ms tick on the
  20 × 20 board (a 300 pixel canvas of 15 pixel tiles), and a session `Play`
  of key presses and ticks. The randomly placed next food cell is a parameter
  of the tick. A session runs under a `TickRule`: `AsWritten` is the game's
  own tick, `Repaired` is the tick with the start-state defect fixed (see
  "Findings"). `PlayInv` holds for both, and `RulesAgreeOnceMoving` shows
  they differ only before the first arrow key.

Four behaviours of the code that a reader might not expect, all modelled as
written:

- `focusWindow` on an unknown id still deactivates every window
  (xp-script.js:329-333), so `Focus` does the same.
- `minimizeWindow` adds `hidden` but keeps the `active` class
  (xp-script.js:358-365), so `Minimize` leaves the `active` flag set.
- `snapToGrid` clamps to `size − 75` at the right and bottom edges
  (xp-script.js:212-213), which need not be a grid line, so a released icon
  need not land on an arrangement slot (`SnapAtEdgeMovesAgain`).
- The snake's reverse guard compares a key with the direction last chosen,
  not the one last moved in (xp-script.js:2408-2413). So Up then Left
  within one tick turns a right-moving snake back into its neck
  (`TwoKeysWithinOneTickReverse`).

## Model

| member | source | states |
|---|---|---|
| `JsMath.FloorDiv` | xp-script.js:120 | `Math.floor(a / b)` is the quotient q with q·b on the correct side of a, for either sign of b |
| `JsMath.JsRem` | xp-script.js:125 | JavaScript `%` takes the sign of the dividend and is smaller in magnitude than the divisor. For a non-negative dividend it is the Euclidean remainder |
| `JsMath.RoundDiv` | xp-script.js:203-204 | `Math.round(a / b)` lies within half a step of a / b, and halves round up |
| `JsMath.RoundDivUnique` | xp-script.js:203-204 | only one integer meets that bound, so the rounding is fully determined |
| `JsMath.NearestMultiple` | xp-script.js:203-210 | rounding and then flooring the column at zero gives the non-negative multiple nearest to the position |
| `IconGrid.MaxRows` | xp-script.js:115-120 | rows per column are never 0: only a zero quotient falls back to 1. The count is positive exactly when the viewport is at least 63 px tall. It is exactly 1 for 63 ≤ H < 163. Outside that range it is the floored quotient: 100·rows ≤ H − 63 < 100·(rows + 1), negative when H < 63 |
| `IconGrid.Slot` | xp-script.js:122-128 | icon i's top lies on a row grid line within the column's `rows` cells. For a positive row count its left lies on a column grid line. For a negative count the columns sit at or left of the margin, in steps of 90 |
| `IconGrid.ArrangeIcons` | xp-script.js:113-133 | icon i gets column `floor(i / rows)` and row `i % rows`, and no two icons share a slot |
| `IconGrid.SlotInjective` | xp-script.js:122-128 | distinct indices give distinct slots, including the negative row count of a tiny viewport |
| `IconGrid.SlotColumnMajor` | xp-script.js:122-128 | for a positive row count (a viewport at least 63 px tall), the next index goes one row down in the same column, or to row 0 of the next column when the column is full |
| `IconGrid.NegativeRowsOrder` | xp-script.js:119-128 | in a viewport 0 to 62 px tall the row count is −1, and icon i sits at (15 − 90·i, 15): the icons run leftwards along the top row, not column by column |
| `IconGrid.SlotAboveTaskbar` | xp-script.js:115-128 | when one row fits, every icon cell ends above the taskbar band |
| `IconGrid.ArrangeExample` | xp-script.js:118-128 | a 600 px viewport has 5 rows, and icon 7 sits in column 1, row 2 |
| `IconGrid.SnapAxis` | xp-script.js:203-213 | a snapped coordinate is at least 15 and at most max(15, limit), and it is a grid line unless it was clamped to the limit |
| `IconGrid.SnapToGrid` | xp-script.js:194-217 | after a drag, left and top are at least 15 and at most max(15, size − 75). Each is on the 90 or 100 px grid unless it sits on that bound |
| `IconGrid.SnapAxisNearest` | xp-script.js:203-213 | whenever the rounded grid line fits within the limit (the last line included when it equals the limit), the snapped coordinate is that grid line, and no non-negative grid line is nearer to the dropped position |
| `IconGrid.SnapAxisFixed` | xp-script.js:203-213 | a grid line within the limit snaps to itself |
| `IconGrid.SnapToGridFixedPoint` | xp-script.js:194-217 | an icon already on a grid point inside the desktop does not move |
| `IconGrid.SnapToGridNearest` | xp-script.js:194-217 | wherever the rounded column and row fit inside `size − 75`, the icon lands on the nearest column and the nearest row |
| `IconGrid.GridPointIsSlot` | xp-script.js:122-128 | every grid point whose row fits in a column is the arrangement slot of some icon index |
| `IconGrid.SnapAtEdgeMovesAgain` | xp-script.js:212-213 | a position clamped at the right edge is not a grid line, and snapping it again moves it |
| `WindowManager.Focus` | xp-script.js:329-345 | every other window loses `active` and its taskbar highlight. A known id becomes active and visible, with z equal to the incremented counter. An unknown id still deactivates all windows but leaves z and the taskbar alone |
| `WindowManager.Create` | xp-script.js:269-313 | an open id is only focused and the keys stay the same. A new id adds exactly one window at top = left = 100 + 20·n with size 450 × 350, active, with z = counter + 2 |
| `WindowManager.Close` | xp-script.js:347-356 | exactly that id leaves the registry. Every other window and the counter stay the same, and an unknown id is a no-op |
| `WindowManager.Minimize` | xp-script.js:358-365 | the window is hidden and its taskbar button cleared. Its z and its `active` class stay, nothing else changes, and an unknown id is a no-op |
| `WindowManager.Toggle` | xp-script.js:367-375 | a hidden or inactive window gets exactly `Focus`, and the visible active one gets exactly `Minimize`. Afterwards the window carries `active`, is hidden exactly when it was the visible active window, and has its button lit exactly when it was restored. An unknown id is a no-op |
| `WindowManager.RaiseNote` | xp-script.js:966 | bringing a sticky note to the front advances the counter by one, above every z-index issued before, and changes no window |
| `WindowManager.Maximize` | xp-script.js:425-440 | the first call saves the geometry and fills the viewport above the taskbar. The next call restores the saved geometry and clears the flag. Nothing else changes, and an unknown id is a no-op |
| `WindowManager.InitInv` | xp-script.js:262-263 | the empty registry with the counter at 100 satisfies the invariant |
| `WindowManager.ActiveIsTopmost` | xp-script.js:329-345 | in a reachable desktop at most one window is active, and it is above every other window |
| `WindowManager.TaskbarActiveUnique` | xp-script.js:341-343 | at most one taskbar button is active |
| `WindowManager.FocusInv` | xp-script.js:329-345 | focus keeps the invariant |
| `WindowManager.CreateInv` | xp-script.js:269-313 | opening a window keeps the invariant |
| `WindowManager.CloseInv` | xp-script.js:347-356 | closing keeps the invariant |
| `WindowManager.MinimizeInv` | xp-script.js:358-365 | minimizing keeps the invariant |
| `WindowManager.ToggleInv` | xp-script.js:367-375 | a taskbar click keeps the invariant |
| `WindowManager.MaximizeInv` | xp-script.js:425-440 | maximize and restore keep the invariant |
| `WindowManager.RaiseNoteInv` | xp-script.js:966 | raising a sticky note keeps the invariant, and afterwards every window, the active one included, lies below the counter |
| `WindowManager.ApplyCounter` | xp-script.js:278 | no operation lowers the z-index counter |
| `WindowManager.RunInv` | xp-script.js:262-440 | every sequence of operations keeps the invariant and never lowers the counter |
| `WindowManager.ReachableInv` | xp-script.js:262-263 | every desktop reached from the initial one satisfies the invariant |
| `WindowManager.FocusRaisesAboveAll` | xp-script.js:329-345 | a focused known window is the only active one, is visible, has the only lit button, and lies above every z issued before |
| `WindowManager.CreateTwiceSameWindows` | xp-script.js:269-273 | opening an id twice yields the same windows, titles, icons and geometry as opening it once |
| `WindowManager.CloseThenReopenIsFresh` | xp-script.js:275-282 | reopening a closed id builds a new window at the cascade position for the remaining windows, not maximized and with no saved geometry |
| `WindowManager.MinimizeThenToggleRestores` | xp-script.js:358-375 | minimize then toggle gives back the active, visible, topmost window |
| `WindowManager.ToggleTwiceFromActive` | xp-script.js:367-375 | two clicks on the active window's button minimize it, then restore it as the active, topmost window |
| `WindowManager.MaximizeTwiceRestores` | xp-script.js:425-440 | maximizing twice restores the exact top/left/width/height and clears the flag. Only the saved snapshot differs from the start |
| `Snake.Turn` | xp-script.js:2408-2413 | a key never sets the exact reverse of the current direction. From an axis direction, it sets the key's direction unless that is the reverse |
| `Snake.CollidesWithBody` | xp-script.js:2441-2448 | the scan reports a hit exactly when the new head is one of the current segments |
| `Snake.TickAsWritten` | xp-script.js:2430-2463 | a head off the 20 × 20 board ends the game at a wall, and a head on a segment ends it on the snake itself. Otherwise the new snake starts at the new head and follows the old body. It grows by one exactly when it eats; then the score rises and the new food is placed |
| `Snake.Tick` | xp-script.js:2430-2463 | the corrected tick waits while no direction is set, so it never ends the game before the first key; once a direction is set the head always moves and the tick behaves as the one above |
| `Snake.StartOverAtFirstTickAsWritten` | xp-script.js:2389-2448 | with no key pressed, the first tick of a new game ends it as a self collision with score 0 |
| `Snake.StartWaitsForKey` | xp-script.js:2389-2412 | with the corrected tick a new game waits, and it moves right after ArrowRight |
| `Snake.TwoKeysWithinOneTickReverse` | xp-script.js:2408-2413 | Up then Left within one tick reverses a snake moving right, and the next tick ends the game |
| `Snake.StartInv` | xp-script.js:2389-2392 | a new game satisfies the game invariant |
| `Snake.TickInv` | xp-script.js:2430-2463 | a tick that does not end the game, as written or repaired, keeps the snake on the board without overlaps, with its length one more than the score |
| `Snake.Play` | xp-script.js:2402-2463 | a session of key presses and ticks under either tick: key presses alone never end the game or move the snake, and the score never goes down |
| `Snake.PlayInv` | xp-script.js:2402-2463 | any interleaving of keys and ticks keeps the game invariant, both for the game's own tick and for the repaired one |
| `Snake.RulesAgreeOnceMoving` | xp-script.js:2389-2413 | once an arrow key has set a direction, the game's own tick and the repaired tick give the same outcome for every later session |
| `Snake.FirstTickOfSession` | xp-script.js:2389-2448 | a session of one tick after "Start Game" ends at once with score 0 as written, and leaves the new game waiting when repaired |

## Left out

- Pointer plumbing is not modelled: `makeDraggable`, `makeResizable` and the icon drag closures. Their geometry effect is adding pointer deltas, and focusing on mouse-down reuses `Focus`. The icon drag enters the model only as its final snap, `SnapToGrid`.
- The 150 ms deferred removal in the close wrapper (xp-script.js:2282-2304) is not modelled: `Close` removes the window at once. During those 150 ms the script still counts the closing window for the cascade offset and would focus it on a reopen. The wrapper's narration stop, goodbye remark and snake key-handler removal are side effects.
- Sounds, assistant speech and the per-id remarks on open are fire-and-forget side effects.
- Window and taskbar HTML is opaque. Titles and icons are kept as strings, and the window body is not represented.
- `openWindowById` is not modelled: it looks up an HTML template by id and then calls `Create`.
- Icon selection and the desktop click handlers are left out. So are the MutationObserver and resize listeners that trigger `arrangeIcons`. These are DOM event wiring.
- The earlier `initDesktopIcons` and `makeIconDraggable` (xp-script.js:443-499) are left out because the `window.*` definitions replace them at run time.
- Snake drawing, the score element, the random food placement (a parameter here) and the interval and listener teardown are left out. A finished game is the `Over` outcome, after which `Play` ignores events.
- Window ids are assumed not to be `Object.prototype` names such as `constructor` or `__proto__`. The registry is a plain object (xp-script.js:263), so `windows['constructor']` is truthy with no window behind it. The command prompt's `start constructor` (xp-script.js:1971) reaches `createWindow` through `openWindowById` (xp-script.js:892-894). The script then takes the focus path, deactivates every window, and throws at xp-script.js:336 with nothing added and the counter unchanged. The model's registry is a map, so such an id opens an ordinary new window.
- JavaScript numbers are doubles. The z-index counter and pixel positions are unbounded integers here, so precision loss beyond 2^53 is not modelled.
- JsMath.JsRem: for a negative dividend the contract gives only the sign and the bound. Every caller passes a non-negative icon index.
- IconGrid.SnapToGridNearest: promises the nearest cell only where the rounded column and row fit within `size − 75`. Beyond that the script clamps to `size − 75`, which need not be a grid line (`SnapAtEdgeMovesAgain`).
- Sticky notes themselves (`createStickyNote`, xp-script.js:955-996) are not modelled: their position, text and drag. Only their effect on the shared counter is, as `RaiseNote`: bringing a note to the front takes `++zIndexCounter` (xp-script.js:966). Other uses of the counter that only read it, such as the clone at xp-script.js:1698, are left out.

## Findings

| source | as written | input that shows it | evidently intended | confidence | as-written member | corrected member |
|---|---|---|---|---|---|---|
| xp-script.js:2389-2448 | "Start Game" sets the direction to (0, 0). The first tick 100 ms later computes a head equal to the current head, and the self-collision scan finds it, so the game ends | click "Start Game" and press no arrow key within the first 100 ms: the game is over with score 0 | the snake waits until the first arrow key sets a direction | not executed; high | `Snake.TickAsWritten`, `Snake.StartOverAtFirstTickAsWritten` | `Snake.Tick`, `Snake.StartWaitsForKey` |

=== FILE: icon_grid.dfy ===
/**
 Desktop icon layout: the automatic column-major arrangement applied on load
 and on every viewport resize, and the snap to the nearest grid cell applied
 when an icon drag ends. Positions are the integer pixel offsets the script
 writes into `style.left` and `style.top`.
 */
module IconGrid {
  import opened JsMath

  /** Width of one grid column. */
  const GridX: int := 90
  /** Height of one grid row. */
  const GridY: int := 100
  /** Band reserved for the taskbar at the bottom of the viewport. */
  const TaskbarHeight: int := 48
  /** Margin before the first column and the first row. */
  const Offset: int := 15
  /** Room an icon needs at the right and bottom edges when snapped. */
  const IconFootprint: int := 75

  datatype Pos = Pos(left: int, top: int)

  /** Rows per column for a viewport of the given height; only a zero quotient falls back to one. */
  function MaxRows(innerHeight: int): (m: int)
    ensures m != 0
    ensures m > 0 <==> innerHeight >= TaskbarHeight + Offset
    ensures innerHeight >= TaskbarHeight + Offset + GridY ==>
              GridY * m <= innerHeight - TaskbarHeight - Offset < GridY * m + GridY
    ensures TaskbarHeight + Offset <= innerHeight < TaskbarHeight + Offset + GridY ==> m == 1
    ensures innerHeight < TaskbarHeight + Offset ==>
              GridY * m <= innerHeight - TaskbarHeight - Offset < GridY * m + GridY
  {
    var q := FloorDiv(innerHeight - TaskbarHeight - Offset, GridY);
    if q == 0 then 1 else q
  }

  /** The slot of the icon at index i: column `floor(i / rows)`, row `i % rows`, as JavaScript computes them. */
  function Slot(i: nat, rows: int): (p: Pos)
    requires rows != 0
    ensures OnGrid(p.top, GridY) && p.top < Offset + Abs(rows) * GridY
    ensures rows > 0 ==> OnGrid(p.left, GridX)
    ensures rows < 0 ==> p.left <= Offset && (Offset - p.left) % GridX == 0
  {
    var col, row := FloorDiv(i, rows), JsRem(i, rows);
    QuotientSign(i, rows);
    SlotShape(col, row, Abs(rows));
    Pos(Offset + col * GridX, Offset + row * GridY)
  }

  lemma SlotShape(col: int, row: nat, rows: nat)
    requires row < rows
    ensures OnGrid(Offset + row * GridY, GridY) && Offset + row * GridY < Offset + rows * GridY
    ensures col >= 0 ==> OnGrid(Offset + col * GridX, GridX)
    ensures col <= 0 ==> (Offset - (Offset + col * GridX)) % GridX == 0
  {
    MultipleOnGrid(row, GridY);
    if col >= 0 {
      MultipleOnGrid(col, GridX);
    }
    if col <= 0 {
      DivModUnique(-col * GridX, GridX, -col, 0);
    }
  }

  /** A non-negative index floors to a column of the row count's sign, or zero. */
  lemma QuotientSign(i: nat, rows: int)
    requires rows != 0
    ensures rows > 0 ==> FloorDiv(i, rows) >= 0
    ensures rows < 0 ==> FloorDiv(i, rows) <= 0
  {
    var q := FloorDiv(i, rows);
    if rows < 0 && q > 0 {
      MulLeftMono(q, rows, -1);
    }
  }

  /** The arrangement of `count` icons for a viewport of height `innerHeight`: every icon gets its slot, no two share one. */
  method ArrangeIcons(count: nat, innerHeight: int) returns (slots: seq<Pos>)
    ensures |slots| == count
    ensures forall i :: 0 <= i < count ==> slots[i] == Slot(i, MaxRows(innerHeight))
    ensures forall i, j :: 0 <= i < j < count ==> slots[i] != slots[j]
  {
    var rows := MaxRows(innerHeight);
    slots := [];
    var i := 0;
    while i < count
      invariant 0 <= i <= count
      invariant |slots| == i
      invariant forall k :: 0 <= k < i ==> slots[k] == Slot(k, rows)
      invariant forall k, l :: 0 <= k < l < i ==> slots[k] != slots[l]
    {
      var p := Slot(i, rows);
      forall k | 0 <= k < i
        ensures slots[k] != p
      {
        if slots[k] == p {
          SlotInjective(k, i, rows);
        }
      }
      slots := slots + [p];
      i := i + 1;
    }
  }

  /** Distinct indices never share a slot, whatever the sign of the row count. */
  lemma SlotInjective(i: nat, j: nat, rows: int)
    requires rows != 0
    requires Slot(i, rows) == Slot(j, rows)
    ensures i == j
  {
    assert FloorDiv(i, rows) == FloorDiv(j, rows) && JsRem(i, rows) == JsRem(j, rows);
    if rows > 0 {
      QuotientRemainderDetermine(i, j, rows);
    } else {
      FloorQuotientRemainderDetermine(i, j, -rows);
    }
  }

  /**
   Column-major fill for a positive row count (a viewport at least 63 px
   tall): the next index goes one row down in the same column, or to the top
   of the next column. With a negative count the order is different
   (`NegativeRowsOrder`).
   */
  lemma {:induction false} SlotColumnMajor(i: nat, rows: int)
    requires rows > 0
    ensures (i + 1) % rows != 0 ==>
              Slot(i + 1, rows) == Pos(Slot(i, rows).left, Slot(i, rows).top + GridY)
    ensures (i + 1) % rows == 0 ==>
              Slot(i + 1, rows) == Pos(Slot(i, rows).left + GridX, Offset)
  {
    var q, r := i / rows, i % rows;
    DivMod(i, rows);
    assert Slot(i, rows) == Pos(Offset + q * GridX, Offset + r * GridY);
    if r + 1 < rows {
      DivModUnique(i + 1, rows, q, r + 1);
      assert Slot(i + 1, rows) == Pos(Offset + q * GridX, Offset + (r + 1) * GridY);
    } else {
      assert i + 1 == rows * (q + 1) + 0;
      DivModUnique(i + 1, rows, q + 1, 0);
      assert Slot(i + 1, rows) == Pos(Offset + (q + 1) * GridX, Offset);
    }
  }

  /**
   In a viewport of height 0 to 62 px the row count is -1, and the icons run
   leftwards along the top row: index i sits i columns left of the margin.
   */
  lemma NegativeRowsOrder(i: nat, innerHeight: int)
    requires 0 <= innerHeight < TaskbarHeight + Offset
    ensures MaxRows(innerHeight) == -1
    ensures Slot(i, MaxRows(innerHeight)) == Pos(Offset - i * GridX, Offset)
  {
    assert FloorDiv(i, -1) == -(i as int);
  }

  /** With room for at least one row, every slot's cell ends above the taskbar band. */
  lemma SlotAboveTaskbar(i: nat, innerHeight: int)
    requires innerHeight >= TaskbarHeight + Offset + GridY
    ensures Slot(i, MaxRows(innerHeight)).top + GridY <= innerHeight - TaskbarHeight
  {
    var m := MaxRows(innerHeight);
    assert JsRem(i, m) <= m - 1;
  }

  /** Eight icons in a viewport with room for five rows: index 7 is in column 1, row 2. */
  lemma ArrangeExample()
    ensures MaxRows(600) == 5
    ensures Slot(7, MaxRows(600)) == Pos(Offset + 1 * GridX, Offset + 2 * GridY)
  {
  }

  /** A coordinate that lies on a grid line of the given cell size. */
  predicate OnGrid(x: int, cell: int)
    requires cell > 0
  {
    x >= Offset && (x - Offset) % cell == 0
  }

  lemma MultipleOnGrid(k: nat, cell: int)
    requires cell > 0
    ensures OnGrid(Offset + k * cell, cell)
  {
    DivModUnique(k * cell, cell, k, 0);
  }

  /** One coordinate of the snap: round to the nearest cell, never before the first, then keep within [Offset, limit]. */
  function SnapAxis(pos: int, cell: int, limit: int): (r: int)
    requires cell > 0
    ensures Offset <= r <= Max(Offset, limit)
    ensures OnGrid(r, cell) || r == limit
  {
    var k := Max(0, RoundDiv(pos - Offset, cell));
    MultipleOnGrid(k, cell);
    MultipleOnGrid(0, cell);
    Max(Offset, Min(Offset + k * cell, limit))
  }

  /** The snap applied when an icon drag ends, for a desktop of the given client size. */
  function SnapToGrid(p: Pos, clientWidth: int, clientHeight: int): (r: Pos)
    ensures Offset <= r.left <= Max(Offset, clientWidth - IconFootprint)
    ensures Offset <= r.top <= Max(Offset, clientHeight - IconFootprint)
    ensures OnGrid(r.left, GridX) || r.left == clientWidth - IconFootprint
    ensures OnGrid(r.top, GridY) || r.top == clientHeight - IconFootprint
  {
    Pos(SnapAxis(p.left, GridX, clientWidth - IconFootprint),
        SnapAxis(p.top, GridY, clientHeight - IconFootprint))
  }

  /** The grid line the snap rounds pos to, before the clamp to the limit. */
  function RoundedLine(pos: int, cell: int): int
    requires cell > 0
  {
    Offset + Max(0, RoundDiv(pos - Offset, cell)) * cell
  }

  /** When the rounded grid line fits within the limit, the snapped coordinate is that line, and no other grid line is nearer to pos. */
  lemma SnapAxisNearest(pos: int, cell: int, limit: int, k: nat)
    requires cell > 0
    requires RoundedLine(pos, cell) <= limit
    ensures OnGrid(SnapAxis(pos, cell, limit), cell)
    ensures Abs(pos - SnapAxis(pos, cell, limit)) <= Abs(pos - (Offset + k * cell))
  {
    var a := pos - Offset;
    var n := RoundDiv(a, cell);
    MultipleOnGrid(Max(0, n), cell);
    assert SnapAxis(pos, cell, limit) == Offset + Max(0, n) * cell;
    NearestMultiple(a, cell, n, k);
  }

  /** A coordinate already on a grid line within the limit is left where it is. */
  lemma SnapAxisFixed(pos: int, cell: int, limit: int)
    requires cell > 0
    requires OnGrid(pos, cell) && pos <= limit
    ensures SnapAxis(pos, cell, limit) == pos
  {
    var a := pos - Offset;
    var j := a / cell;
    DivMod(a, cell);
    assert a == cell * j;
    assert 2 * cell * j == 2 * a;
    RoundDivUnique(a, cell, j);
    assert j >= 0 && j * cell == a;
  }

  /** Snapping a position that is already a grid point inside the desktop changes nothing. */
  lemma SnapToGridFixedPoint(p: Pos, clientWidth: int, clientHeight: int)
    requires OnGrid(p.left, GridX) && p.left <= clientWidth - IconFootprint
    requires OnGrid(p.top, GridY) && p.top <= clientHeight - IconFootprint
    ensures SnapToGrid(p, clientWidth, clientHeight) == p
  {
    SnapAxisFixed(p.left, GridX, clientWidth - IconFootprint);
    SnapAxisFixed(p.top, GridY, clientHeight - IconFootprint);
  }

  /** Wherever the rounded column and row fit inside the desktop, the snap picks the nearest column and the nearest row. */
  lemma SnapToGridNearest(p: Pos, clientWidth: int, clientHeight: int, col: nat, row: nat)
    requires RoundedLine(p.left, GridX) <= clientWidth - IconFootprint
    requires RoundedLine(p.top, GridY) <= clientHeight - IconFootprint
    ensures Abs(p.left - SnapToGrid(p, clientWidth, clientHeight).left) <= Abs(p.left - (Offset + col * GridX))
    ensures Abs(p.top - SnapToGrid(p, clientWidth, clientHeight).top) <= Abs(p.top - (Offset + row * GridY))
  {
    SnapAxisNearest(p.left, GridX, clientWidth - IconFootprint, col);
    SnapAxisNearest(p.top, GridY, clientHeight - IconFootprint, row);
  }

  /** A grid point whose row fits in a column is the slot of some icon index. */
  lemma GridPointIsSlot(q: Pos, rows: int) returns (i: nat)
    requires rows > 0
    requires OnGrid(q.left, GridX) && OnGrid(q.top, GridY)
    requires (q.top - Offset) / GridY < rows
    ensures Slot(i, rows) == q
  {
    var col, row := (q.left - Offset) / GridX, (q.top - Offset) / GridY;
    i := rows * col + row;
    DivModUnique(i, rows, col, row);
  }

  /** At the right edge the snap is not idempotent: a clamped position is no grid line, and snapping it again moves it. */
  lemma SnapAtEdgeMovesAgain()
    ensures SnapToGrid(Pos(300, 15), 275, 400) == Pos(200, 15)
    ensures SnapToGrid(Pos(200, 15), 275, 400) == Pos(195, 15)
  {
  }
}

=== FILE: js_math.dfy ===
/**
 The integer arithmetic the desktop script relies on, written out because
 JavaScript and Dafny disagree on it: `Math.floor(a / b)` floors, `a % b`
 truncates (the remainder takes the sign of the dividend), and
 `Math.round(x)` is `floor(x + 1/2)`. Dafny's own `/` and `%` are
 Euclidean, which coincides with flooring only for a positive divisor.
 */
module JsMath {

  function Abs(x: int): (r: nat)
    ensures r == x || r == -x
  {
    if x < 0 then -x else x
  }

  function Max(a: int, b: int): (r: int)
    ensures r >= a && r >= b
    ensures r == a || r == b
  {
    if a < b then b else a
  }

  function Min(a: int, b: int): (r: int)
    ensures r <= a && r <= b
    ensures r == a || r == b
  {
    if a < b then a else b
  }

  /** `Math.floor(a / b)`: the greatest q with q * b on the same side of a as the sign of b demands. */
  function FloorDiv(a: int, b: int): (q: int)
    requires b != 0
    ensures b > 0 ==> q * b <= a < q * b + b
    ensures b < 0 ==> q * b + b < a <= q * b
  {
    if b > 0 then a / b
    else
      var k := -b;
      var q := (-a) / k;
      assert k * q <= -a < k * q + k;
      q
  }

  /** JavaScript's `a % b` on integers: the remainder of truncating division, which
      takes the sign of the dividend. */
  function JsRem(a: int, b: int): (r: int)
    requires b != 0
    ensures a >= 0 ==> 0 <= r < Abs(b)
    ensures a < 0 ==> 0 < r + Abs(b) && r <= 0
    ensures a >= 0 ==> r == a % Abs(b)
  {
    if a >= 0 then a % Abs(b) else -((-a) % Abs(b))
  }

  /** `Math.round(a / b)` for b > 0: the nearest integer, halves rounded up. */
  function RoundDiv(a: int, b: int): (n: int)
    requires b > 0
    ensures 2 * b * n - b <= 2 * a < 2 * b * n + b
  {
    (2 * a + b) / (2 * b)
  }

  /** Only one integer lies within half a step of a / b, so the rounding above is determined by its ensures. */
  lemma RoundDivUnique(a: int, b: int, n: int)
    requires b > 0
    requires 2 * b * n - b <= 2 * a < 2 * b * n + b
    ensures n == RoundDiv(a, b)
  {
    var m := RoundDiv(a, b);
    if n < m {
      MulLeftMono(2 * b, n + 1, m);
    } else if n > m {
      MulLeftMono(2 * b, m + 1, n);
    }
  }

  lemma MulLeftMono(c: int, x: int, y: int)
    requires c > 0 && x <= y
    ensures c * x <= c * y
  {
    assert c * y - c * x == c * (y - x);
  }

  /** Euclidean division by a positive divisor has exactly one quotient and remainder. */
  lemma DivModUnique(a: int, b: int, q: int, r: int)
    requires b > 0 && 0 <= r < b
    requires a == b * q + r
    ensures a / b == q && a % b == r
  {
    var q', r' := a / b, a % b;
    assert a == b * q' + r';
    if q < q' {
      MulLeftMono(b, q + 1, q');
    } else if q > q' {
      MulLeftMono(b, q' + 1, q);
    }
  }

  lemma DivMod(a: int, b: int)
    requires b > 0
    ensures a == b * (a / b) + a % b
    ensures 0 <= a % b < b
  {
  }

  /** The only multiple of k strictly between -k and k is zero. */
  lemma SmallMultiple(k: int, d: int)
    requires k > 0 && -k < k * d < k
    ensures d == 0
  {
    if d > 0 {
      MulLeftMono(k, 1, d);
    } else if d < 0 {
      MulLeftMono(k, d, -1);
    }
  }

  /** The rounded quotient n, floored at zero, gives the multiple of b nearest to a among the non-negative ones. */
  lemma NearestMultiple(a: int, b: int, n: int, k: nat)
    requires b > 0
    requires 2 * b * n - b <= 2 * a < 2 * b * n + b
    ensures Abs(a - Max(0, n) * b) <= Abs(a - k * b)
  {
    var x, y := n * b, k * b;
    assert 2 * b * n == 2 * x;
    MultiplesApart(b, n, k);
    assert Max(0, n) * b == if n < 0 then 0 else x;
  }

  /** Distinct multiples of b are at least b apart, and the non-negative ones are non-negative. */
  lemma MultiplesApart(b: int, n: int, k: nat)
    requires b > 0
    ensures 0 <= k * b
    ensures n < 0 ==> n * b <= -b
    ensures k < n ==> k * b <= n * b - b
    ensures k > n ==> k * b >= n * b + b
  {
    MulLeftMono(b, 0, k);
    if n < 0 {
      MulLeftMono(b, n, -1);
    }
    if k < n {
      MulLeftMono(b, k, n - 1);
    }
    if k > n {
      MulLeftMono(b, n + 1, k);
    }
  }

  /** A non-negative number is determined by its quotient and remainder. */
  lemma QuotientRemainderDetermine(i: int, j: int, k: int)
    requires k > 0
    requires i / k == j / k && i % k == j % k
    ensures i == j
  {
    DivMod(i, k);
    DivMod(j, k);
  }

  /** With a negative divisor -k, JavaScript's floored quotient and truncated remainder still determine a non-negative number. */
  lemma FloorQuotientRemainderDetermine(i: nat, j: nat, k: int)
    requires k > 0
    requires FloorDiv(i, -k) == FloorDiv(j, -k) && JsRem(i, -k) == JsRem(j, -k)
    ensures i == j
  {
    var ni, nj := -(i as int), -(j as int);
    assert ni / k == nj / k && i % k == j % k;
    DivMod(ni, k);
    DivMod(nj, k);
    assert -k < i - j < k;
    DivMod(i, k);
    DivMod(j, k);
    var d := i / k - j / k;
    assert i - j == k * d by {
      assert k * (i / k) - k * (j / k) == k * d;
    }
    SmallMultiple(k, d);
  }
}

=== FILE: snake.dfy ===
/**
 The snake game that runs inside the "snake" window: the arrow-key handler
 that steers, and the tick that runs every 100 ms and either ends the game on
 a wall or self collision or moves the snake one tile, growing it when it eats.
 The board is the 300-pixel canvas cut into 15-pixel tiles. Food placement is
 random in the game, so the next food cell is a parameter of the tick.
 */
module Snake {

  const TilePixels: int := 15
  const CanvasPixels: int := 300
  /** Tiles per side of the square board. */
  const TileCount: int := CanvasPixels / TilePixels

  datatype Cell = Cell(x: int, y: int)

  /** The per-tick displacement of the head. */
  datatype Dir = Dir(dx: int, dy: int)

  datatype Key = ArrowUp | ArrowDown | ArrowLeft | ArrowRight | OtherKey

  datatype Game = Game(snake: seq<Cell>, dir: Dir, food: Cell, score: nat)

  datatype Collision = Wall | Self

  datatype Outcome = Over(reason: Collision, finalScore: nat) | Running(game: Game)

  /** The state "Start Game" sets up: one segment in the middle, no direction yet. */
  function Start(): Game
  {
    Game([Cell(10, 10)], Dir(0, 0), Cell(5, 5), 0)
  }

  predicate InBoard(c: Cell)
  {
    0 <= c.x < TileCount && 0 <= c.y < TileCount
  }

  /** The directions the key handler can produce: standing still or one tile along an axis. */
  predicate IsHeading(d: Dir)
  {
    d == Dir(0, 0) || d == Dir(0, -1) || d == Dir(0, 1) || d == Dir(-1, 0) || d == Dir(1, 0)
  }

  function Reverse(d: Dir): Dir
  {
    Dir(-d.dx, -d.dy)
  }

  /** The direction an arrow key asks for. */
  function KeyVector(k: Key): Dir
    requires k != OtherKey
  {
    match k
    case ArrowUp => Dir(0, -1)
    case ArrowDown => Dir(0, 1)
    case ArrowLeft => Dir(-1, 0)
    case ArrowRight => Dir(1, 0)
  }

  /** The key handler: an arrow key sets its direction unless that is the exact reverse of the current one. */
  function Turn(d: Dir, k: Key): (r: Dir)
    ensures r == d || r != Reverse(d)
    ensures IsHeading(d) ==> IsHeading(r)
    ensures IsHeading(d) ==>
              r == (if k != OtherKey && KeyVector(k) != Reverse(d) then KeyVector(k) else d)
  {
    match k
    case ArrowUp => if d.dy != 1 then Dir(0, -1) else d
    case ArrowDown => if d.dy != -1 then Dir(0, 1) else d
    case ArrowLeft => if d.dx != 1 then Dir(-1, 0) else d
    case ArrowRight => if d.dx != -1 then Dir(1, 0) else d
    case OtherKey => d
  }

  function NextHead(g: Game): Cell
    requires |g.snake| > 0
  {
    Cell(g.snake[0].x + g.dir.dx, g.snake[0].y + g.dir.dy)
  }

  /** The self-collision scan: does the new head coincide with any current segment, tail included? */
  method CollidesWithBody(head: Cell, snake: seq<Cell>) returns (hit: bool)
    ensures hit <==> head in snake
  {
    hit := false;
    var i := 0;
    while i < |snake|
      invariant 0 <= i <= |snake|
      invariant !hit ==> head !in snake[..i]
      invariant hit ==> head in snake
    {
      if snake[i] == head {
        hit := true;
        return;
      }
      i := i + 1;
    }
  }

  /**
   One tick exactly as the game runs it. With no key pressed yet the
   direction is (0, 0), the new head is the current head, and the game ends
   as a self collision.
   */
  function TickAsWritten(g: Game, newFood: Cell): (r: Outcome)
    requires |g.snake| > 0
    ensures r.Over? && r.reason == Wall <==> !InBoard(NextHead(g))
    ensures r.Over? && r.reason == Self <==> InBoard(NextHead(g)) && NextHead(g) in g.snake
    ensures r.Over? ==> r.finalScore == g.score
    ensures r.Running? ==>
              && |r.game.snake| > 0 && r.game.snake[0] == NextHead(g)
              && (|r.game.snake| == |g.snake| + 1 <==> NextHead(g) == g.food)
              && (|r.game.snake| == |g.snake| <==> NextHead(g) != g.food)
              && r.game.snake[1..] == g.snake[..|r.game.snake| - 1]
              && r.game.dir == g.dir
              && (NextHead(g) == g.food ==> r.game.food == newFood && r.game.score == g.score + 1)
              && (NextHead(g) != g.food ==> r.game.food == g.food && r.game.score == g.score)
  {
    var head := NextHead(g);
    if !InBoard(head) then Over(Wall, g.score)
    else if head in g.snake then Over(Self, g.score)
    else if head == g.food then
      Running(Game([head] + g.snake, g.dir, newFood, g.score + 1))
    else
      Running(Game([head] + g.snake[..|g.snake| - 1], g.dir, g.food, g.score))
  }

  /** The tick with the start state repaired: while no direction has been chosen the snake waits; otherwise as above. */
  function Tick(g: Game, newFood: Cell): (r: Outcome)
    requires |g.snake| > 0
    ensures g.dir == Dir(0, 0) ==> r == Running(g)
    ensures r.Over? ==> g.dir != Dir(0, 0)
    ensures g.dir != Dir(0, 0) ==> r == TickAsWritten(g, newFood)
    ensures r.Running? && g.dir != Dir(0, 0) ==> |r.game.snake| > 0 && r.game.snake[0] != g.snake[0]
  {
    if g.dir == Dir(0, 0) then Running(g) else TickAsWritten(g, newFood)
  }

  /** As written, the game started by "Start Game" is over at its first tick unless a key came first. */
  lemma StartOverAtFirstTickAsWritten(newFood: Cell)
    ensures TickAsWritten(Start(), newFood) == Over(Self, 0)
  {
    assert NextHead(Start()) == Start().snake[0];
  }

  /** With the corrected tick the new game waits, and moves once an arrow key is pressed. */
  lemma StartWaitsForKey(newFood: Cell)
    ensures Tick(Start(), newFood) == Running(Start())
    ensures Tick(Start().(dir := Turn(Start().dir, ArrowRight)), newFood)
              == Running(Game([Cell(11, 10)], Dir(1, 0), Cell(5, 5), 0))
  {
    var g := Start().(dir := Dir(1, 0));
    assert Turn(Start().dir, ArrowRight) == Dir(1, 0);
    assert NextHead(g) == Cell(11, 10) && InBoard(Cell(11, 10));
    assert Cell(11, 10) !in g.snake && Cell(11, 10) != g.food;
    assert g.snake[..|g.snake| - 1] == [];
  }

  /**
   The reverse guard compares with the direction last chosen, not the one
   last moved in: Up then Left within one tick turns a snake moving right
   straight back onto its neck.
   */
  lemma TwoKeysWithinOneTickReverse(newFood: Cell)
    ensures Turn(Turn(Dir(1, 0), ArrowUp), ArrowLeft) == Reverse(Dir(1, 0))
    ensures var g := Game([Cell(5, 5), Cell(4, 5)], Dir(1, 0), Cell(0, 0), 1);
            Tick(g.(dir := Turn(Turn(g.dir, ArrowUp), ArrowLeft)), newFood) == Over(Self, 1)
  {
    var g := Game([Cell(5, 5), Cell(4, 5)], Dir(-1, 0), Cell(0, 0), 1);
    assert NextHead(g) == g.snake[1];
  }

  // ---------------------------------------------------------------------------
  // The game invariant
  // ---------------------------------------------------------------------------

  /** A game in play: a non-empty snake of distinct tiles on the board, an axis direction, and one point per segment grown. */
  ghost predicate GameInv(g: Game)
  {
    && |g.snake| == g.score + 1
    && (forall i :: 0 <= i < |g.snake| ==> InBoard(g.snake[i]))
    && (forall i, j :: 0 <= i < j < |g.snake| ==> g.snake[i] != g.snake[j])
    && IsHeading(g.dir)
  }

  lemma StartInv()
    ensures GameInv(Start())
  {
  }

  /** A tick that does not end the game, as written or repaired, keeps the snake on the board, free of overlaps, and its length one more than the score. */
  lemma TickInv(g: Game, newFood: Cell)
    requires GameInv(g)
    ensures TickAsWritten(g, newFood).Running? ==> GameInv(TickAsWritten(g, newFood).game)
    ensures Tick(g, newFood).Running? ==> GameInv(Tick(g, newFood).game)
  {
  }

  // ---------------------------------------------------------------------------
  // A game session: key presses and ticks in the order they arrive
  // ---------------------------------------------------------------------------

  datatype Event = Press(key: Key) | Step(newFood: Cell)

  /** Which tick a session runs: the game's own, or the one with the start state repaired. */
  datatype TickRule = AsWritten | Repaired

  /**
   Play events in order; once a tick ends the game, the timer and the key
   handler are gone and later events change nothing. Key presses alone
   never end a game or move the snake, and the score never drops.
   */
  function Play(rule: TickRule, g: Game, events: seq<Event>): (r: Outcome)
    requires |g.snake| > 0
    ensures (forall i :: 0 <= i < |events| ==> events[i].Press?) ==>
              r.Running? && r.game.snake == g.snake && r.game.score == g.score
    ensures r.Running? ==> r.game.score >= g.score
    ensures r.Over? ==> r.finalScore >= g.score
    decreases |events|
  {
    if |events| == 0 then Running(g)
    else match events[0]
      case Press(k) => Play(rule, g.(dir := Turn(g.dir, k)), events[1..])
      case Step(f) =>
        match (if rule == Repaired then Tick(g, f) else TickAsWritten(g, f))
        case Over(reason, score) => Over(reason, score)
        case Running(g') => Play(rule, g', events[1..])
  }

  /** Whatever keys and ticks arrive, under either tick, a game still running satisfies the invariant. */
  lemma {:induction false} PlayInv(rule: TickRule, g: Game, events: seq<Event>)
    requires GameInv(g)
    ensures Play(rule, g, events).Running? ==> GameInv(Play(rule, g, events).game)
    decreases |events|
  {
    if |events| > 0 {
      match events[0]
      case Press(k) =>
        PlayInv(rule, g.(dir := Turn(g.dir, k)), events[1..]);
      case Step(f) =>
        TickInv(g, f);
        var t := if rule == Repaired then Tick(g, f) else TickAsWritten(g, f);
        if t.Running? {
          PlayInv(rule, t.game, events[1..]);
        }
    }
  }

  /** Once the snake is moving, the two ticks agree on every later session: the repair only changes what happens before the first key. */
  lemma {:induction false} RulesAgreeOnceMoving(g: Game, events: seq<Event>)
    requires |g.snake| > 0 && IsHeading(g.dir) && g.dir != Dir(0, 0)
    ensures Play(AsWritten, g, events) == Play(Repaired, g, events)
    decreases |events|
  {
    if |events| > 0 {
      match events[0]
      case Press(k) =>
        RulesAgreeOnceMoving(g.(dir := Turn(g.dir, k)), events[1..]);
      case Step(f) =>
        if Tick(g, f).Running? {
          RulesAgreeOnceMoving(Tick(g, f).game, events[1..]);
        }
    }
  }

  /** A session of one tick after "Start Game": over at once as written, waiting when repaired. */
  lemma FirstTickOfSession(f: Cell)
    ensures Play(AsWritten, Start(), [Step(f)]) == Over(Self, 0)
    ensures Play(Repaired, Start(), [Step(f)]) == Running(Start())
  {
    StartOverAtFirstTickAsWritten(f);
    assert [Step(f)][1..] == [];
  }
}

=== FILE: window_manager.dfy ===
/**
 The window registry of the desktop: a map from window id to the state its
 element carries (classes, z-index, inline geometry, the maximize snapshot in
 its dataset, and the `active` class of its taskbar button), plus the global
 z-index counter. Every operation is a pure function from one desktop to the
 next; an id that is not in the registry leaves it unchanged, except that
 opening it adds a window and focusing it still deactivates every window.
 */
module WindowManager {

  /** The counter's value before any window is created. */
  const InitialZ: int := 100
  /** Top and left of the first window, and the step between successive ones. */
  const CascadeStart: int := 100
  const CascadeStep: int := 20
  const DefaultWidth: int := 450
  const DefaultHeight: int := 350

  /** An inline CSS length: whole pixels, or one of the viewport-relative sizes of a maximized window. */
  datatype Length = Px(px: int) | FullViewportWidth | ViewportHeightAboveTaskbar

  datatype Geometry = Geometry(top: Length, left: Length, width: Length, height: Length)

  /** The geometry saved in the element's dataset by the first maximize; absent before it. */
  datatype Snapshot = NoSnapshot | Saved(geometry: Geometry)

  datatype Window = Window(
    title: string,
    icon: string,
    active: bool,          // the element has class `active` (otherwise `inactive`)
    hidden: bool,          // the element has class `hidden`: minimized
    z: int,                // style.zIndex
    geometry: Geometry,
    maximized: bool,       // dataset.maximized is 'true'
    snapshot: Snapshot,
    taskbarActive: bool    // the paired taskbar button has class `active`
  )

  datatype Desktop = Desktop(windows: map<string, Window>, zCounter: int)

  function Init(): Desktop
  {
    Desktop(map[], InitialZ)
  }

  /** Where the n-th simultaneously open window appears, at the default size. */
  function CascadeGeometry(n: nat): Geometry
  {
    Geometry(Px(CascadeStart + n * CascadeStep), Px(CascadeStart + n * CascadeStep),
             Px(DefaultWidth), Px(DefaultHeight))
  }

  /** The geometry a maximized window takes: the whole viewport above the taskbar. */
  const MaximizedGeometry: Geometry :=
    Geometry(Px(0), Px(0), FullViewportWidth, ViewportHeightAboveTaskbar)

  // ---------------------------------------------------------------------------
  // Operations
  // ---------------------------------------------------------------------------

  /** Deactivate every window; a known id then becomes the active, visible window with the next z-index and the only active taskbar button. */
  function Focus(d: Desktop, id: string): (r: Desktop)
    ensures r.windows.Keys == d.windows.Keys
    ensures forall k :: k in r.windows && k != id ==> !r.windows[k].active
    ensures id in d.windows ==>
              && r.zCounter == d.zCounter + 1
              && r.windows[id] == d.windows[id].(active := true, hidden := false, z := r.zCounter, taskbarActive := true)
              && forall k :: k in d.windows && k != id ==>
                   r.windows[k] == d.windows[k].(active := false, taskbarActive := false)
    ensures id !in d.windows ==>
              && r.zCounter == d.zCounter
              && forall k :: k in d.windows ==> r.windows[k] == d.windows[k].(active := false)
  {
    if id in d.windows then
      var c := d.zCounter + 1;
      Desktop(map k | k in d.windows ::
                if k == id then d.windows[k].(active := true, hidden := false, z := c, taskbarActive := true)
                else d.windows[k].(active := false, taskbarActive := false),
              c)
    else
      Desktop(map k | k in d.windows :: d.windows[k].(active := false), d.zCounter)
  }

  /** Open a window: a known id is only focused; a new one gets the next z-index, the cascade position for the number of open windows and the default size, and is then focused. */
  function Create(d: Desktop, id: string, title: string, icon: string): (r: Desktop)
    ensures id in d.windows ==> r == Focus(d, id) && r.windows.Keys == d.windows.Keys
    ensures id !in d.windows ==>
              && r.windows.Keys == d.windows.Keys + {id}
              && |r.windows| == |d.windows| + 1
              && r.zCounter == d.zCounter + 2
              && r.windows[id] == Window(title, icon, true, false, r.zCounter,
                                         CascadeGeometry(|d.windows|), false, NoSnapshot, true)
              && forall k :: k in d.windows ==>
                   r.windows[k] == d.windows[k].(active := false, taskbarActive := false)
  {
    if id in d.windows then Focus(d, id)
    else
      var w := Window(title, icon, true, false, d.zCounter + 1,
                      CascadeGeometry(|d.windows|), false, NoSnapshot, true);
      Focus(Desktop(d.windows[id := w], d.zCounter + 1), id)
  }

  /** Remove the window and its taskbar button; every other window and the counter are untouched. */
  function Close(d: Desktop, id: string): (r: Desktop)
    ensures r.windows.Keys == d.windows.Keys - {id}
    ensures forall k :: k in r.windows ==> r.windows[k] == d.windows[k]
    ensures r.zCounter == d.zCounter
    ensures id !in d.windows ==> r == d
  {
    if id in d.windows then Desktop(d.windows - {id}, d.zCounter) else d
  }

  /** Hide the window and clear its taskbar button; its z-index and its `active` class stay. */
  function Minimize(d: Desktop, id: string): (r: Desktop)
    ensures r.windows.Keys == d.windows.Keys
    ensures r.zCounter == d.zCounter
    ensures forall k :: k in d.windows && k != id ==> r.windows[k] == d.windows[k]
    ensures id in d.windows ==>
              && r.windows[id].hidden && !r.windows[id].taskbarActive
              && r.windows[id].z == d.windows[id].z
              && r.windows[id] == d.windows[id].(hidden := true, taskbarActive := false)
    ensures id !in d.windows ==> r == d
  {
    if id in d.windows then
      Desktop(d.windows[id := d.windows[id].(hidden := true, taskbarActive := false)], d.zCounter)
    else d
  }

  /** The taskbar button's click: restore a hidden or inactive window, minimize the visible active one. */
  function Toggle(d: Desktop, id: string): (r: Desktop)
    ensures r.windows.Keys == d.windows.Keys
    ensures id in d.windows ==> r.windows[id].active
    ensures id in d.windows ==>
              (r.windows[id].hidden <==> d.windows[id].active && !d.windows[id].hidden)
    ensures id in d.windows ==>
              (r.windows[id].taskbarActive <==> !d.windows[id].active || d.windows[id].hidden)
    ensures id in d.windows && (d.windows[id].hidden || !d.windows[id].active) ==> r == Focus(d, id)
    ensures id in d.windows && !d.windows[id].hidden && d.windows[id].active ==> r == Minimize(d, id)
    ensures id !in d.windows ==> r == d
  {
    if id !in d.windows then d
    else if d.windows[id].hidden || !d.windows[id].active then Focus(d, id)
    else Minimize(d, id)
  }

  /** Maximize, or restore the geometry saved by the previous maximize; the z-index and the classes are untouched. */
  function Maximize(d: Desktop, id: string): (r: Desktop)
    ensures r.windows.Keys == d.windows.Keys
    ensures r.zCounter == d.zCounter
    ensures forall k :: k in d.windows && k != id ==> r.windows[k] == d.windows[k]
    ensures id in d.windows && !d.windows[id].maximized ==>
              && r.windows[id].maximized
              && r.windows[id].geometry == MaximizedGeometry
              && r.windows[id].snapshot == Saved(d.windows[id].geometry)
    ensures id in d.windows && d.windows[id].maximized ==>
              && !r.windows[id].maximized
              && r.windows[id].snapshot == d.windows[id].snapshot
              && (d.windows[id].snapshot.Saved? ==>
                    r.windows[id].geometry == d.windows[id].snapshot.geometry)
    ensures id in d.windows ==>
              r.windows[id] == d.windows[id].(geometry := r.windows[id].geometry,
                                              maximized := r.windows[id].maximized,
                                              snapshot := r.windows[id].snapshot)
    ensures id !in d.windows ==> r == d
  {
    if id !in d.windows then d
    else
      var w := d.windows[id];
      var w' :=
        if w.maximized then
          // With no snapshot the script would assign `undefined`, which the style ignores.
          var g := if w.snapshot.Saved? then w.snapshot.geometry else w.geometry;
          w.(geometry := g, maximized := false)
        else
          w.(geometry := MaximizedGeometry, maximized := true, snapshot := Saved(w.geometry));
      Desktop(d.windows[id := w'], d.zCounter)
  }

  /** A sticky note brought to the front takes the next z-index from the same counter; no window changes. */
  function RaiseNote(d: Desktop): (r: Desktop)
    ensures r.windows == d.windows
    ensures r.zCounter == d.zCounter + 1
    ensures forall k :: k in d.windows && d.windows[k].z <= d.zCounter ==> r.windows[k].z < r.zCounter
  {
    Desktop(d.windows, d.zCounter + 1)
  }

  // ---------------------------------------------------------------------------
  // The registry invariant
  // ---------------------------------------------------------------------------

  /** Z-indices are issued by the counter: above its start, never above its current value, and distinct. */
  ghost predicate ZIssued(d: Desktop)
  {
    && d.zCounter >= InitialZ
    && (forall k :: k in d.windows ==> InitialZ < d.windows[k].z <= d.zCounter)
    && (forall a, b {:trigger d.windows[a].z, d.windows[b].z} ::
          a in d.windows && b in d.windows && a != b ==> d.windows[a].z != d.windows[b].z)
  }

  /**
   A window with the `active` class or an active taskbar button lies above
   every other window; it need not sit at the counter, which sticky notes
   also advance.
   */
  ghost predicate ActiveOnTop(d: Desktop)
  {
    forall a, b {:trigger d.windows[a].active, d.windows[b].z}
                {:trigger d.windows[a].taskbarActive, d.windows[b].z} ::
      a in d.windows && b in d.windows && a != b
      && (d.windows[a].active || d.windows[a].taskbarActive)
      ==> d.windows[b].z < d.windows[a].z
  }

  /** An active taskbar button belongs to a visible window. */
  ghost predicate LitVisible(d: Desktop)
  {
    forall k :: k in d.windows && d.windows[k].taskbarActive ==> !d.windows[k].hidden
  }

  /** A maximized window has its geometry saved. */
  ghost predicate MaximizedSaved(d: Desktop)
  {
    forall k :: k in d.windows && d.windows[k].maximized ==> d.windows[k].snapshot.Saved?
  }

  /** What holds of every desktop reachable from Init. */
  ghost predicate Inv(d: Desktop)
  {
    ZIssued(d) && ActiveOnTop(d) && LitVisible(d) && MaximizedSaved(d)
  }

  lemma InitInv()
    ensures Inv(Init())
  {
  }

  /** At most one window has the `active` class, and it is above every other window. */
  lemma ActiveIsTopmost(d: Desktop, a: string)
    requires Inv(d)
    requires a in d.windows && d.windows[a].active
    ensures forall k :: k in d.windows && k != a ==> !d.windows[k].active
    ensures forall k :: k in d.windows && k != a ==> d.windows[k].z < d.windows[a].z
  {
  }

  /** At most one taskbar button is active. */
  lemma TaskbarActiveUnique(d: Desktop, a: string, b: string)
    requires Inv(d)
    requires a in d.windows && b in d.windows
    requires d.windows[a].taskbarActive && d.windows[b].taskbarActive
    ensures a == b
  {
  }

  /**
   The common step of focus and open: one window takes a z-index above the
   old counter, becomes visible with the only active button, and every other
   window only loses its `active` class and its button highlight.
   */
  lemma RaisedInv(d: Desktop, r: Desktop, id: string)
    requires Inv(d)
    requires r.windows.Keys == d.windows.Keys + {id}
    requires r.zCounter > d.zCounter
    requires id in r.windows && r.windows[id].z == r.zCounter && !r.windows[id].hidden
    requires r.windows[id].maximized ==> r.windows[id].snapshot.Saved?
    requires forall k :: k in r.windows && k != id ==>
               r.windows[k] == d.windows[k].(active := false, taskbarActive := false)
    ensures Inv(r)
  {
    var w := r.windows;
    forall k | k in w
      ensures InitialZ < w[k].z <= r.zCounter
    {
      if k != id {
        assert w[k].z == d.windows[k].z;
      }
    }
    forall a, b | a in w && b in w && a != b
      ensures w[a].z != w[b].z
    {
      if a != id && b != id {
        assert w[a].z == d.windows[a].z && w[b].z == d.windows[b].z;
      } else if a == id {
        assert w[b].z == d.windows[b].z;
      } else {
        assert w[a].z == d.windows[a].z;
      }
    }
    forall a, b | a in w && b in w && a != b && (w[a].active || w[a].taskbarActive)
      ensures w[b].z < w[a].z
    {
      assert a == id && w[b].z == d.windows[b].z;
    }
    forall k | k in w && w[k].taskbarActive
      ensures !w[k].hidden
    {
      assert k == id;
    }
    forall k | k in w && w[k].maximized
      ensures w[k].snapshot.Saved?
    {
      if k != id {
        assert w[k].maximized == d.windows[k].maximized;
      }
    }
  }

  lemma FocusInv(d: Desktop, id: string)
    requires Inv(d)
    ensures Inv(Focus(d, id))
  {
    if id in d.windows {
      RaisedInv(d, Focus(d, id), id);
    }
  }

  lemma CreateInv(d: Desktop, id: string, title: string, icon: string)
    requires Inv(d)
    ensures Inv(Create(d, id, title, icon))
  {
    if id in d.windows {
      FocusInv(d, id);
    } else {
      RaisedInv(d, Create(d, id, title, icon), id);
    }
  }

  lemma CloseInv(d: Desktop, id: string)
    requires Inv(d)
    ensures Inv(Close(d, id))
  {
  }

  /**
   The common step of minimize and maximize: one window keeps its z-index,
   may lose but not gain its `active` class and button highlight, and keeps
   a lit button only while visible; every other window and the counter are
   untouched.
   */
  lemma ReshapedInv(d: Desktop, r: Desktop, id: string)
    requires Inv(d)
    requires r.windows.Keys == d.windows.Keys && r.zCounter == d.zCounter
    requires forall k :: k in d.windows && k != id ==> r.windows[k] == d.windows[k]
    requires id in d.windows ==>
               && r.windows[id].z == d.windows[id].z
               && (r.windows[id].active ==> d.windows[id].active)
               && (r.windows[id].taskbarActive ==> d.windows[id].taskbarActive && !r.windows[id].hidden)
               && (r.windows[id].maximized ==> r.windows[id].snapshot.Saved?)
    ensures Inv(r)
  {
    var w := r.windows;
    forall k | k in w
      ensures w[k].z == d.windows[k].z
    {
    }
    forall a, b | a in w && b in w && a != b && (w[a].active || w[a].taskbarActive)
      ensures w[b].z < w[a].z
    {
      assert d.windows[a].active || d.windows[a].taskbarActive;
    }
  }

  lemma MinimizeInv(d: Desktop, id: string)
    requires Inv(d)
    ensures Inv(Minimize(d, id))
  {
    ReshapedInv(d, Minimize(d, id), id);
  }

  lemma ToggleInv(d: Desktop, id: string)
    requires Inv(d)
    ensures Inv(Toggle(d, id))
  {
    if id in d.windows {
      if d.windows[id].hidden || !d.windows[id].active {
        FocusInv(d, id);
      } else {
        MinimizeInv(d, id);
      }
    }
  }

  lemma MaximizeInv(d: Desktop, id: string)
    requires Inv(d)
    ensures Inv(Maximize(d, id))
  {
    ReshapedInv(d, Maximize(d, id), id);
  }

  /** Raising a sticky note keeps the invariant, and leaves every window, the active one included, below the counter. */
  lemma RaiseNoteInv(d: Desktop)
    requires Inv(d)
    ensures Inv(RaiseNote(d))
    ensures forall a :: a in RaiseNote(d).windows ==> RaiseNote(d).windows[a].z < RaiseNote(d).zCounter
  {
  }

  // ---------------------------------------------------------------------------
  // Sessions: any sequence of operations
  // ---------------------------------------------------------------------------

  datatype Op =
    | Open(id: string, title: string, icon: string)
    | FocusOp(id: string)
    | CloseOp(id: string)
    | MinimizeOp(id: string)
    | ToggleOp(id: string)
    | MaximizeOp(id: string)
    | RaiseNoteOp

  function Apply(d: Desktop, op: Op): Desktop
  {
    match op
    case Open(id, title, icon) => Create(d, id, title, icon)
    case FocusOp(id) => Focus(d, id)
    case CloseOp(id) => Close(d, id)
    case MinimizeOp(id) => Minimize(d, id)
    case ToggleOp(id) => Toggle(d, id)
    case MaximizeOp(id) => Maximize(d, id)
    case RaiseNoteOp => RaiseNote(d)
  }

  function Run(d: Desktop, ops: seq<Op>): Desktop
    decreases |ops|
  {
    if |ops| == 0 then d else Run(Apply(d, ops[0]), ops[1..])
  }

  lemma ApplyInv(d: Desktop, op: Op)
    requires Inv(d)
    ensures Inv(Apply(d, op))
  {
    match op
    case Open(id, title, icon) => ApplyOpenInv(d, id, title, icon);
    case FocusOp(id) => FocusInv(d, id);
    case CloseOp(id) => CloseInv(d, id);
    case MinimizeOp(id) => MinimizeInv(d, id);
    case ToggleOp(id) => ApplyToggleInv(d, id);
    case MaximizeOp(id) => MaximizeInv(d, id);
    case RaiseNoteOp => RaiseNoteInv(d);
  }

  // The two cases whose operations are built from Focus, proved apart to keep ApplyInv small.

  lemma ApplyOpenInv(d: Desktop, id: string, title: string, icon: string)
    requires Inv(d)
    ensures Inv(Apply(d, Open(id, title, icon)))
  {
    CreateInv(d, id, title, icon);
  }

  lemma ApplyToggleInv(d: Desktop, id: string)
    requires Inv(d)
    ensures Inv(Apply(d, ToggleOp(id)))
  {
    ToggleInv(d, id);
  }

  /** Every operation sequence keeps the invariant and never lowers the z-index counter. */
  lemma {:induction false} RunInv(d: Desktop, ops: seq<Op>)
    requires Inv(d)
    ensures Inv(Run(d, ops))
    ensures Run(d, ops).zCounter >= d.zCounter
    decreases |ops|
  {
    if |ops| > 0 {
      ApplyInv(d, ops[0]);
      ApplyCounter(d, ops[0]);
      RunInv(Apply(d, ops[0]), ops[1..]);
    }
  }

  lemma ApplyCounter(d: Desktop, op: Op)
    ensures Apply(d, op).zCounter >= d.zCounter
  {
  }

  /** Every desktop reached from the initial one satisfies the invariant. */
  lemma ReachableInv(ops: seq<Op>)
    ensures Inv(Run(Init(), ops))
  {
    InitInv();
    RunInv(Init(), ops);
  }

  // ---------------------------------------------------------------------------
  // Properties of the operations
  // ---------------------------------------------------------------------------

  /** Focusing a known window makes it the only active one and puts it above every z-index issued before. */
  lemma FocusRaisesAboveAll(d: Desktop, id: string)
    requires Inv(d)
    requires id in d.windows
    ensures var r := Focus(d, id);
            && r.windows[id].active && !r.windows[id].hidden && r.windows[id].taskbarActive
            && (forall k :: k in d.windows ==> d.windows[k].z < r.windows[id].z)
            && (forall k :: k in r.windows && k != id ==> !r.windows[k].active && !r.windows[k].taskbarActive)
            && (forall k :: k in r.windows && k != id ==> r.windows[k].z < r.windows[id].z)
  {
  }

  /** Opening an id that is already open adds nothing: a second open keeps the windows of the first, with their titles, icons and geometry. */
  lemma CreateTwiceSameWindows(d: Desktop, id: string, t1: string, i1: string, t2: string, i2: string)
    ensures var once := Create(d, id, t1, i1);
            var twice := Create(once, id, t2, i2);
            && once.windows.Keys == d.windows.Keys + {id}
            && twice.windows.Keys == once.windows.Keys
            && forall k :: k in once.windows ==>
                 && twice.windows[k].title == once.windows[k].title
                 && twice.windows[k].icon == once.windows[k].icon
                 && twice.windows[k].geometry == once.windows[k].geometry
  {
  }

  /** After a close, opening the same id builds a new window at the cascade position, not the old one. */
  lemma CloseThenReopenIsFresh(d: Desktop, id: string, title: string, icon: string)
    requires id in d.windows
    ensures var r := Create(Close(d, id), id, title, icon);
            && r.windows.Keys == d.windows.Keys
            && r.windows[id].geometry == CascadeGeometry(|d.windows| - 1)
            && !r.windows[id].maximized && r.windows[id].snapshot == NoSnapshot
            && r.windows[id].title == title
  {
  }

  /** Minimizing and then clicking the taskbar button brings the window back as the active, visible, topmost window. */
  lemma MinimizeThenToggleRestores(d: Desktop, id: string)
    requires Inv(d)
    requires id in d.windows
    ensures var r := Toggle(Minimize(d, id), id);
            && r.windows[id].active && !r.windows[id].hidden && r.windows[id].taskbarActive
            && (forall k :: k in r.windows && k != id ==> !r.windows[k].active && r.windows[k].z < r.windows[id].z)
  {
  }

  /** Two clicks on the taskbar button of the visible active window minimize it and then restore it as the active, topmost window. */
  lemma ToggleTwiceFromActive(d: Desktop, id: string)
    requires Inv(d)
    requires id in d.windows && d.windows[id].active && !d.windows[id].hidden
    ensures Toggle(d, id).windows[id].hidden
    ensures var r := Toggle(Toggle(d, id), id);
            && r.windows[id].active && !r.windows[id].hidden && r.windows[id].taskbarActive
            && (forall k :: k in r.windows && k != id ==> !r.windows[k].active && r.windows[k].z < r.windows[id].z)
  {
  }

  /** Maximizing twice restores exactly the geometry before the first call and clears the flag; nothing else on the desktop changes. */
  lemma MaximizeTwiceRestores(d: Desktop, id: string)
    requires id in d.windows && !d.windows[id].maximized
    ensures var w := d.windows[id];
            Maximize(Maximize(d, id), id)
              == Desktop(d.windows[id := w.(snapshot := Saved(w.geometry))], d.zCounter)
  {
  }
}
